=== FILE: README.md ===
# F1 standings bot: a Dafny model of the scraper heuristic and the bot's decisions

The repository is a chat bot that relays Formula 1 driver standings. It searches the web,
scrapes a standings table from an allow-listed site, and falls back to a fixed table
when that fails. It writes the result to a CSV file and can email that file through a
separate mail tool. This project models the logic of that flow as pure Dafny functions
and proves what it promises:

- `text.dfy` (`Text`): ASCII digit strings and their values, the decimal shape
  `^\d+(\.\d+)?$`, substring search (Python's `in`), and ASCII lower-casing.
- `standings.dfy` (`Standings`): the standings record, the stable sort by position, and
  the ten-record fallback table (`_get_mock_standings`).
- `table_parser.dfy` (`TableParser`): `F1Scraper._parse_table_rows`. This covers the
  per-cell classification loop, the row emission test, the 20-record cap and the final
  sort. Each field also gets an independent definition of the cell it comes from
  (`IsPositionCell`, `IsPointsCell`, `IsNameCell`), with lemmas linking the two.
- `parser_rules.dfy` (`ParserRules`): the heuristic's quirks as lemmas over arbitrary
  cells of the right kind, plus two concrete rows.
- `scraper.dfy` (`Scraper`): the selector chain of `_scrape_standings_from_url`, the
  allow-list filter and fallback of `search_f1_standings`, and the row order
  `create_csv` writes.
- `bot.dfy` (`Bot`): the `/email` argument check and the replies it leads to, keyword
  routing of free text, the tolerant decoding of the mail tool's response, and the
  `/standings` reply text.

The network and the HTML library are parameters. A fetched page is a function from CSS
selector to the rows it matches; each row is a sequence of already-stripped cell
strings. A fetch that raised is `FetchFailed`. A search is `SearchFailed` or its hits in
rank order. The mail tool's answer is a tagged union of the shapes the bot inspects,
holding JSON values that are already decoded.

The model follows the code where it behaves differently from what a reader might expect:

- The allow-list test is a substring test on the whole link (`domain in href`), not a
  match on the host. A link such as `https://example.org/?formula1.com` passes.
- Every allow-listed hit is tried in rank order until one scrape is non-empty. It is not
  only the first matching link.
- A hit without an `href` key raises `KeyError`. That exception reaches the outer
  handler, so the whole search returns the fallback table, even if a later hit would
  have worked (`TryHitsSpec`).
- Positions are not de-duplicated. Records that share a position stay in row order
  (`ParseKeepsTies`).

## Model

| member | source | states |
|---|---|---|
| Text.DecimalShape | f1_scraper.py:110 | the decimal-shape test holds exactly for strings matching `^\d+(\.\d+)?$`: only digits, or digits, one point and digits |
| Text.DigitsValueZero | f1_scraper.py:107-118 | `int(text)` of an all-digit cell is 0 exactly when every digit is `0`; such a position fails the truthiness test |
| Text.NatToStringRoundTrip | main.py:81 | the position printed in a reply line reads back as the same number |
| Text.DecimalToString | main.py:81 | the model's rendering of a points token (its whole part, then `.` and the fraction digits when there are any) has the decimal shape and parses back to the same token; the source prints the float instead (see Left out) |
| Text.ContainsSplit | f1_scraper.py:28 | Python's `sub in s` holds exactly when `s` splits as `a + sub + b` |
| Text.JoinPart | main.py:80-81 | text built by appending parts in order holds part `i` exactly between the total lengths of the parts before it and up to it |
| Standings.SortByPosition | f1_scraper.py:128 | the parse result is ascending by position and is a permutation of the accepted records |
| Standings.SortStable | f1_scraper.py:128 | for every position, records holding it keep their input order, as Python's stable `sorted` does |
| Standings.SortSortedIdentity | f1_scraper.py:128 | sorting a list that is already in position order leaves it unchanged |
| Standings.MockStandings | f1_scraper.py:137-148 | the fallback table has exactly 10 records with positions 1 to 10 in order, whole-number points strictly descending, and non-empty names |
| TableParser.Step | f1_scraper.py:104-116 | one cell changes at most one field: a set position is never replaced, a new position is the value of an all-digit cell, new points come from a decimal-shaped cell, and a new name is a non-empty, non-numeric cell strictly longer than the old name; such a cell always becomes the name; the converse for position and points is `TableParser.StepTakes` |
| TableParser.StepTakes | f1_scraper.py:106-111 | while no position is set, an all-digit cell becomes the position; a decimal-shaped cell not taken as the position becomes the points |
| TableParser.Classify | f1_scraper.py:104-116 | a name the cell loop keeps is non-empty and not number-shaped; kept points carry only digits after the point |
| TableParser.PositionSpec | f1_scraper.py:106-107 | the position is the value of the first all-digit cell, and is unset exactly when no cell is all-digit |
| TableParser.PointsSpec | f1_scraper.py:106-111 | the points come from the last decimal-shaped cell not taken as position, so a later all-digit cell counts as points; unset exactly when no such cell exists |
| TableParser.NameSpec | f1_scraper.py:113-116 | the name is unset exactly when no cell is non-empty and not number-shaped; otherwise it is the text of a longest such cell, with no earlier one as long |
| TableParser.NameCellIsName | f1_scraper.py:113-116 | the longest candidate cell, earliest on a tie, is the name the loop keeps (the comparison is a strict `>`) |
| TableParser.RowRecord | f1_scraper.py:93-123 | every record a row yields has a non-zero position, a non-empty driver and well-formed points |
| TableParser.RowRecordSpec | f1_scraper.py:95-123 | a row yields a record exactly when it has at least 3 cells, a position cell, a points cell and a name cell, and the position is non-zero; the record is built from those cells; zero points are allowed |
| TableParser.Collect | f1_scraper.py:93-126 | the row loop only appends, never holds more than 20 records, and when it stops short of 20 it holds every accepted record of the rows |
| TableParser.CollectTakesFirst | f1_scraper.py:93-126 | stopping after the 20th accepted record keeps exactly the first 20 accepted records in row order |
| TableParser.ParseTableRows | f1_scraper.py:81-128 | at most 20 records, sorted by position, all well-formed; a permutation of the first 20 accepted data rows; empty exactly when no data row is accepted |
| TableParser.ParseKeepsTies | f1_scraper.py:125-128 | records with equal positions come out in row order |
| TableParser.HeaderIgnored | f1_scraper.py:93 | the first row never contributes: replacing it leaves the result unchanged |
| TableParser.CapIgnoresLaterRows | f1_scraper.py:125-126 | once 20 records are accepted, appending further rows changes nothing |
| ParserRules.PositionNamePoints | f1_scraper.py:104-123 | position, name, points in column order give the record built from those three cells |
| ParserRules.LaterDigitsArePoints | f1_scraper.py:106-111 | an all-digit cell after the position is read as points, not as a second position |
| ParserRules.LastPointsWin | f1_scraper.py:110-111 | of two points-shaped cells the later one provides the points |
| ParserRules.TieKeepsEarlierName | f1_scraper.py:114-116 | of two equally long name cells the earlier one is kept |
| ParserRules.ZeroPositionDropped | f1_scraper.py:118 | a row whose position cell is all zeros yields no record |
| ParserRules.NoDigitCellDropped | f1_scraper.py:106-118 | a row with no all-digit cell yields no record |
| ParserRules.ShortRowDropped | f1_scraper.py:95 | a row with fewer than 3 cells yields no record |
| ParserRules.LeaderRow | f1_scraper.py:104-123 | the row `1, Max Verstappen, 575` yields position 1, that driver and 575 points |
| ParserRules.NonFinisherRow | f1_scraper.py:106-118 | the row `DNF, Driver X, 12.5` yields no record |
| Scraper.SelectorChain | f1_scraper.py:61-75 | the chain's result has at most 20 records, is sorted and is well-formed |
| Scraper.SelectorChainSpec | f1_scraper.py:68-75 | the chain returns the parse of the first selector's rows that have more than one row and a non-empty parse, and is empty exactly when no selector qualifies |
| Scraper.ScrapeUrl | f1_scraper.py:50-79 | a failed fetch yields nothing; on a fetched page the result is the parse of the first of the four selectors, in order, whose rows are more than a header and parse to something; it is empty exactly when no selector's rows qualify |
| Scraper.SearchStandings | f1_scraper.py:21-38 | the search always returns between 1 and 20 sorted, well-formed records; a failed search returns the fallback table |
| Scraper.IsCandidate | f1_scraper.py:28 | a link is tried exactly when `formula1.com`, `espn.com` or `bbc.com` occurs anywhere in it, with any text before and after |
| Scraper.TryHits | f1_scraper.py:27-34 | the candidate loop always yields between 1 and 20 sorted, well-formed records |
| Scraper.TryHitsSpec | f1_scraper.py:27-34 | the result is the scrape of the first allow-listed hit whose scrape is non-empty; it is the fallback table when no hit qualifies or a hit without a link comes first |
| Scraper.NoCandidateFallsBack | f1_scraper.py:27-38 | with no allow-listed link among the hits the fallback table is returned, whatever the pages hold; hits without a link may appear anywhere |
| Scraper.NothingScrapedFallsBack | f1_scraper.py:27-38 | when every allow-listed link's page yields nothing, the fallback table is returned, whatever the other pages hold and wherever hits without a link appear |
| Scraper.ExportOrder | f1_scraper.py:161-162 | the written rows are sorted by position and are a permutation of the standings |
| Scraper.ExportKeepsSearchOrder | f1_scraper.py:171-180 | under the model's stable export order, the search result's records are written in the order the search returned them (see Left out for pandas' sort) |
| Scraper.ExportIdempotent | f1_scraper.py:161-166 | under the model's stable export order, ordering the rows twice gives the same rows as once (see Left out for pandas' sort) |
| Bot.ValidAddress | main.py:101 | an address passes exactly when some character is `@` and some character is `.`, at any places and in any order |
| Bot.PlanEmail | main.py:91-103 | usage is shown exactly when there are no arguments; otherwise the first argument is dispatched unchanged exactly when the multiset of its characters holds `@` and `.`, so character order never matters |
| Bot.EmailReplies | main.py:89-128 | the handler sends one reply, or two exactly when the address was accepted; then the first is "preparing" for that address, and the second is the error reply exactly when producing the file raised, the confirmation exactly when the response decodes as success, and the failure reply exactly when it does not |
| Bot.NoArgsOnlyUsage | main.py:91-96 | without arguments the only reply is the usage text, whatever the standings or the mail tool would do |
| Bot.InvalidAddressRefused | main.py:100-103 | an address lacking `@` or `.` gets only the refusal |
| Bot.OnlyFirstArgument | main.py:98 | arguments after the first never change the replies |
| Bot.ConfirmedIffDecoded | main.py:105-122 | a valid address gets "preparing", then the confirmation exactly when the response decodes as success, else the failure reply |
| Bot.ExportFailureReported | main.py:105-128 | when producing the standings file raises, a valid address gets "preparing" and then the error reply |
| Bot.AddressCheckIgnoresOrder | main.py:101 | the address check depends only on which characters occur, not their positions |
| Bot.DecodeSuccess | main.py:145-185 | the response reads as success exactly for an unrecognised shape, or when the carried object has a truthy `success` field; a raised call, an empty or text-less list and a missing field read as failure |
| Bot.RouteMessage | main.py:130-143 | free text gets the standings hint exactly when, at some position of the raw text, one of `f1`, `formula`, `standings`, `points` occurs up to ASCII case: each character there, lower-cased, is the keyword's |
| Bot.RouteIgnoresCase | main.py:132 | routing gives the same answer for a text and its lower-cased form |
| Bot.RouteHintSurvivesContext | main.py:134 | text that gets the hint still gets it with anything written before or after it |
| Bot.LinesConcat | main.py:79-81 | the reply lists one line per row in file order: the lines for `a + b` are `a`'s lines followed by `b`'s |
| Bot.StandingLine | main.py:81 | each reply line reads back field by field: the digits before the first `.` are worth the position, then `. `, the driver, ` - `, points text that parses back to the record's points, and ` pts` with a newline |
| Bot.StandingsText | main.py:79-81 | the reply is the header followed by one line per row in file order and nothing else: row `i`'s line sits at its offset after the header, and the length is the header's plus all lines' |

## Left out

- Web search and HTTP: the DuckDuckGo query with `max_results=5`, the browser user agent,
  the 10-second timeout and `raise_for_status`. A search is given as its hits, and a
  page as either a failed fetch or its contents.
- HTML parsing: BeautifulSoup, CSS selection and `get_text(strip=True)` are a foreign
  library. A page is the rows each selector matches, as already-stripped cell strings.
- Non-ASCII digits and long numbers: `str.isdigit`, `\d` and `int()` disagree on some
  Unicode digits, and CPython 3.11 and later make `int()` raise for an ASCII digit
  string longer than 4300 digits. When `int()` raises, the page scrape returns nothing.
  Cells are read over ASCII digits only, and digit strings of any length are read.
- Floating point: `float(text)` is not modelled. Points are kept as the decimal token's
  whole part and fraction digits, so rounding and the equality of `7.5` and `7.50`
  are not modelled.
- Scraper.ExportOrder: only the row order of `create_csv` is modelled. The model sorts
  with the same stable sort as the parser. pandas' default `sort_values` is not
  documented as stable, so the model's tie order is one of the orders pandas may
  produce. Building the DataFrame, CSV rendering, the file path and the file write are
  not modelled. A write failure appears only as `ExportRaised` in `Bot.EmailReplies`.
- Scraper.ExportKeepsSearchOrder: holds for the model's stable sort. pandas'
  `sort_values('position')` defaults to quicksort, which is not stable. Scraped results
  can repeat a position (`TableParser.ParseKeepsTies`), so for pandas the file keeps the
  search order only when the positions are distinct.
- Scraper.ExportIdempotent: holds for the model's stable sort. For pandas it holds only
  when the positions are distinct, since an unstable sort may reorder tied records again.
- Text.DecimalToString: the reply prints `float(text)`, not the token. Python prints
  `575` as `575.0`, `12.50` as `12.5`, and switches to exponent form from `1e16`. The
  model prints the token's whole part and fraction digits, so only its own rendering
  reads back.
- Bot.StandingLine: points are printed as the whole part plus `.fraction` when there is
  one. pandas may print a float column as `575.0`, and the CSV write and read round trip
  is not modelled.
- The Telegram application: handler registration, polling, `reply_text` and logging.
  Replies are constructors of `Bot.Reply` and `Bot.ChatReply`, not their text. The
  `/start` and `/help` handlers only send fixed text and are not modelled.
- The mail tool client: the FastMCP connection and `json.loads`. A response holds
  already-decoded JSON, or `None` where decoding raised. JSON numbers are integers, so
  the truthiness of floats is not modelled.
- Bot.RouteMessage: lower-casing covers ASCII letters only. Python's Unicode case
  mapping is not modelled.
- `gmail_mcp/send_email.py` (SMTP, MIME, credentials from the environment),
  `gmail_mcp/gamil_mcp_server.py` (a tool wrapper whose only decision is whether a file
  exists) and `run_bot.py` (process supervision): I/O only.

=== FILE: bot.dfy ===
/**
 The decisions inside the chat handlers of `F1TelegramBot`: the `/email`
 argument check and the replies it leads to, free-text keyword routing,
 the tolerant reading of the email tool's response, and the standings reply.
 Sending messages, the chat framework and the tool client are left to the
 caller; what they deliver is passed in as data.
 */
module Bot {
  import opened Options
  import opened Text
  import opened Standings

  // ----- /email -----

  /** The address check: an `@` and a `.` somewhere, in any order and at
      any place, nothing more. */
  function ValidAddress(s: string): (v: bool)
    ensures v <==> (exists i :: 0 <= i < |s| && s[i] == '@') && (exists j :: 0 <= j < |s| && s[j] == '.')
  {
    '@' in s && '.' in s
  }

  /** What `/email` decides before any work is done. */
  datatype EmailPlan = ShowUsage | RejectAddress | Dispatch(address: string)

  function PlanEmail(args: seq<string>): (p: EmailPlan)
    ensures p.ShowUsage? <==> |args| == 0
    ensures |args| > 0 ==> (p.Dispatch? <==> '@' in multiset(args[0]) && '.' in multiset(args[0]))
    ensures p.Dispatch? ==> p.address == args[0]
  {
    if |args| == 0 then ShowUsage
    else if !ValidAddress(args[0]) then RejectAddress
    else Dispatch(args[0])
  }

  /** A JSON value as `json.loads` returns it (numbers as integers). */
  datatype Json =
    | JNull
    | JBool(b: bool)
    | JNum(n: int)
    | JStr(s: string)
    | JArr(items: seq<Json>)
    | JObj(fields: map<string, Json>)

  /** Python truthiness of a decoded JSON value. */
  predicate Truthy(j: Json) {
    match j
    case JNull => false
    case JBool(b) => b
    case JNum(n) => n != 0
    case JStr(s) => |s| > 0
    case JArr(items) => |items| > 0
    case JObj(fields) => |fields| > 0
  }

  /** One content item of a tool result: a text item, holding what
      `json.loads` made of its text (`None` when that raises), or an item
      without a `text` attribute. */
  datatype Content = TextContent(parsed: Option<Json>) | OtherContent

  /** The shapes `call_tool` can hand back, or the exception it raised. */
  datatype ToolResponse =
    | ListResponse(items: seq<Content>)
    | ContentResponse(content: seq<Content>)
    | DictResponse(fields: map<string, Json>)
    | OtherResponse
    | CallRaised

  /** `tool_result.get('success', False)` on a decoded text, as the caller's
      `if success:` reads it; a decode failure or a payload that is not an
      object raises and is caught as `False`. */
  predicate SuccessField(parsed: Option<Json>) {
    match parsed
    case Some(JObj(fields)) => "success" in fields && Truthy(fields["success"])
    case _ => false
  }

  /** `send_email_via_mcp`'s reading of the response, branch by branch.
      It reports success exactly for an unrecognised shape, or when the
      object the response carries has a truthy `success` field; so every
      exception, every empty or text-less list, and every missing field
      reads as failure. */
  function DecodeSuccess(r: ToolResponse): (ok: bool)
    ensures ok <==>
      r.OtherResponse? ||
      (Payload(r).Some? && "success" in Payload(r).value && Truthy(Payload(r).value["success"]))
  {
    match r
    case ListResponse(items) =>
      if |items| > 0 && items[0].TextContent? then SuccessField(items[0].parsed) else false
    case ContentResponse(content) =>
      if |content| == 0 then false
      else if content[0].OtherContent? then false
      else SuccessField(content[0].parsed)
    case DictResponse(fields) => "success" in fields && Truthy(fields["success"])
    case OtherResponse => true
    case CallRaised => false
  }

  /** The JSON object a response carries, if it carries one where the
      decoder looks: the first content item's decoded text, or the dict. */
  function Payload(r: ToolResponse): (o: Option<map<string, Json>>) {
    match r
    case ListResponse(items) => if |items| > 0 then FirstObject(items[0]) else None
    case ContentResponse(content) => if |content| > 0 then FirstObject(content[0]) else None
    case DictResponse(fields) => Some(fields)
    case _ => None
  }

  function FirstObject(c: Content): (o: Option<map<string, Json>>) {
    if c.TextContent? && c.parsed.Some? && c.parsed.value.JObj? then Some(c.parsed.value.fields) else None
  }

  /** The replies `/email` sends. */
  datatype Reply =
    | UsageText
    | InvalidAddressText
    | PreparingText(address: string)
    | SentText(address: string)
    | SendFailedText
    | SendErrorText

  /** What follows the "preparing" reply: producing the standings file raised,
      or the email tool answered. */
  datatype Delivery = ExportRaised | Responded(response: ToolResponse)

  /** `email_command`: the sequence of replies for the given arguments. */
  function EmailReplies(args: seq<string>, delivery: Delivery): (rs: seq<Reply>)
    ensures 1 <= |rs| <= 2
    ensures |rs| == 2 <==> PlanEmail(args).Dispatch?
    ensures |rs| == 2 ==>
      rs[0] == PreparingText(args[0]) &&
      (rs[1] == SendErrorText <==> delivery.ExportRaised?) &&
      (rs[1] == SentText(args[0]) <==> delivery.Responded? && DecodeSuccess(delivery.response)) &&
      (rs[1] == SendFailedText <==> delivery.Responded? && !DecodeSuccess(delivery.response))
  {
    match PlanEmail(args)
    case ShowUsage => [UsageText]
    case RejectAddress => [InvalidAddressText]
    case Dispatch(a) =>
      [PreparingText(a)] +
      match delivery
      case ExportRaised => [SendErrorText]
      case Responded(r) => if DecodeSuccess(r) then [SentText(a)] else [SendFailedText]
  }

  /** Without arguments the handler only explains its usage: what the
      standings fetch or the email tool would have done plays no part. */
  lemma NoArgsOnlyUsage(d: Delivery)
    ensures EmailReplies([], d) == [UsageText]
  {
  }

  /** An address without `@` or `.` is refused before anything is fetched. */
  lemma InvalidAddressRefused(address: string, rest: seq<string>, d: Delivery)
    requires !('@' in address && '.' in address)
    ensures EmailReplies([address] + rest, d) == [InvalidAddressText]
  {
  }

  /** Only the first argument matters. */
  lemma OnlyFirstArgument(address: string, rest: seq<string>, rest': seq<string>, d: Delivery)
    ensures EmailReplies([address] + rest, d) == EmailReplies([address] + rest', d)
  {
  }

  /** A valid address is confirmed by name exactly when the tool's response
      decodes as success. */
  lemma ConfirmedIffDecoded(address: string, rest: seq<string>, r: ToolResponse)
    requires ValidAddress(address)
    ensures EmailReplies([address] + rest, Responded(r)) ==
      [PreparingText(address), if DecodeSuccess(r) then SentText(address) else SendFailedText]
  {
  }

  /** When producing the standings file raises, a valid address gets
      "preparing" and then the error reply; the email tool is never asked. */
  lemma ExportFailureReported(address: string, rest: seq<string>)
    requires ValidAddress(address)
    ensures EmailReplies([address] + rest, ExportRaised) == [PreparingText(address), SendErrorText]
  {
  }

  /** The check looks at which characters occur, not where: any rearrangement
      of an address is accepted or refused alike. */
  lemma {:induction false} AddressCheckIgnoresOrder(a: string, b: string)
    requires multiset(a) == multiset(b)
    ensures ValidAddress(a) <==> ValidAddress(b)
  {
    assert '@' in a <==> '@' in multiset(a);
    assert '@' in b <==> '@' in multiset(b);
    assert '.' in a <==> '.' in multiset(a);
    assert '.' in b <==> '.' in multiset(b);
  }

  // ----- free text -----

  /** Words that make free text read as a standings question. */
  const Keywords: seq<string> := ["f1", "formula", "standings", "points"]

  datatype ChatReply = StandingsHint | Greeting

  predicate MentionsKeyword(lowered: string) {
    exists w :: w in Keywords && Contains(lowered, w)
  }

  /** Keyword `w` appears in the raw `text` at index `i` once each character
      is lower-cased. */
  predicate KeywordAt(text: string, w: string, i: int) {
    0 <= i && i + |w| <= |text| && forall k :: 0 <= k < |w| ==> LowerChar(text[i + k]) == w[k]
  }

  /** Searching the lower-cased copy is searching the raw text character by
      character, ignoring case. */
  lemma KeywordReading(text: string)
    ensures MentionsKeyword(Lower(text)) <==> exists w, i :: w in Keywords && KeywordAt(text, w, i)
  {
    var l := Lower(text);
    forall w, i | w in Keywords
      ensures OccursAt(l, w, i) <==> KeywordAt(text, w, i)
    {
      if 0 <= i && i + |w| <= |text| {
        var seg := l[i..i + |w|];
        assert forall k :: 0 <= k < |w| ==> seg[k] == LowerChar(text[i + k]);
      }
    }
  }

  /** `handle_message`: the standings hint exactly when one of the keywords
      occurs somewhere in the text, letter case aside; the greeting otherwise. */
  function RouteMessage(text: string): (r: ChatReply)
    ensures r == StandingsHint <==> exists w, i :: w in Keywords && KeywordAt(text, w, i)
  {
    KeywordReading(text);
    if MentionsKeyword(Lower(text)) then StandingsHint else Greeting
  }

  /** Routing ignores letter case. */
  lemma RouteIgnoresCase(text: string)
    ensures RouteMessage(Lower(text)) == RouteMessage(text)
  {
    LowerIdempotent(text);
  }

  /** Text that earns the hint keeps earning it whatever is written around it. */
  lemma RouteHintSurvivesContext(before: string, text: string, after: string)
    requires RouteMessage(text) == StandingsHint
    ensures RouteMessage(before + text + after) == StandingsHint
  {
    var w :| w in Keywords && Contains(Lower(text), w);
    LowerConcat(before + text, after);
    LowerConcat(before, text);
    ContainsExtend(Lower(text), w, Lower(before), Lower(after));
  }

  // ----- /standings -----

  const StandingsHeader: string := "\U{1F3CE}\U{FE0F} **Current F1 Driver Standings:**\n\n"

  /** One line of the standings reply: `"{position}. {driver} - {points} pts"`.
      The line reads back: the text before its first `.` is the position's
      digits, worth the record's position; after `". "` comes the driver, then
      `" - "`, then points text that parses back to the record's points, and
      the line ends the way every line does. */
  function StandingLine(r: Record): (line: string)
    requires WellFormed(r)
    ensures var k := DotIndex(line);
      IsDigitString(line[..k]) && DigitsValue(line[..k]) == r.position
    ensures var n := |NatToString(r.position)|; var k := n + 2 + |r.driver|;
      k + 3 <= |line| - 5 &&
      line[n..n + 2] == ". " && line[n + 2..k] == r.driver && line[k..k + 3] == " - " &&
      IsDecimal(line[k + 3..|line| - 5]) && ParseDecimal(line[k + 3..|line| - 5]) == r.points
    ensures |line| >= 5 && line[|line| - 5..] == " pts\n"
  {
    var p := NatToString(r.position);
    var q := DecimalToString(r.points);
    NatToStringRoundTrip(r.position);
    var line := LineText(p, r.driver, q);
    DotAfterDigits(p, line[|p|..]);
    assert line == p + line[|p|..];
    line
  }

  /** The line layout, field by field: each field can be read back at its place. */
  function LineText(p: string, driver: string, q: string): (line: string)
    ensures var k := |p| + 2 + |driver|;
      |line| == k + 3 + |q| + 5 &&
      line[..|p|] == p && line[|p|..|p| + 2] == ". " && line[|p| + 2..k] == driver &&
      line[k..k + 3] == " - " && line[k + 3..|line| - 5] == q && line[|line| - 5..] == " pts\n"
      && line[|p|] == '.'
  {
    var line := p + ". " + driver + " - " + q + " pts\n";
    FiveParts(p, ". ", driver, " - ", q, " pts\n");
    line
  }

  /** Each of five appended strings can be read back at its place. */
  lemma FiveParts(a: string, b: string, c: string, d: string, e: string, f: string)
    ensures var s := a + b + c + d + e + f;
      var i := |a| + |b|; var j := i + |c|; var k := j + |d|; var l := k + |e|;
      |s| == l + |f| &&
      s[..|a|] == a && s[|a|..i] == b && s[i..j] == c && s[j..k] == d && s[k..l] == e && s[l..] == f
  {
  }

  /** The reply's lines, one per row, in file order. */
  function LinesOf(rows: seq<Record>): (ls: seq<string>)
    requires AllWellFormed(rows)
    ensures |ls| == |rows| && forall i :: 0 <= i < |rows| ==> ls[i] == StandingLine(rows[i])
  {
    seq(|rows|, i requires 0 <= i < |rows| => StandingLine(rows[i]))
  }

  /** The reply to `/standings`: the header, then the lines of the rows in
      file order, line `i` at offset `Offset(LinesOf(rows), i)` after the header,
      and nothing after the last line. */
  function StandingsText(rows: seq<Record>): (t: string)
    requires AllWellFormed(rows)
    ensures var h := |StandingsHeader|;
      |t| == h + Offset(LinesOf(rows), |rows|) && t[..h] == StandingsHeader &&
      forall i :: 0 <= i < |rows| ==> PartAt(t[h..], LinesOf(rows), i)
  {
    var ls := LinesOf(rows);
    JoinParts(ls);
    var t := StandingsHeader + Join(ls);
    assert t[|StandingsHeader|..] == Join(ls);
    t
  }

  /** The reply for `a + b` is `a`'s lines then `b`'s. */
  lemma LinesConcat(a: seq<Record>, b: seq<Record>)
    requires AllWellFormed(a) && AllWellFormed(b)
    ensures AllWellFormed(a + b)
    ensures Join(LinesOf(a + b)) == Join(LinesOf(a)) + Join(LinesOf(b))
  {
    var c := a + b;
    forall i | 0 <= i < |c|
      ensures WellFormed(c[i])
    {
      if i < |a| { assert c[i] == a[i]; } else { assert c[i] == b[i - |a|]; }
    }
    assert LinesOf(c) == LinesOf(a) + LinesOf(b);
    JoinConcat(LinesOf(a), LinesOf(b));
  }
}

=== FILE: options.dfy ===
/** The optional value used wherever the source holds `None` or a missing key. */
module Options {

  datatype Option<+T> = None | Some(value: T)
}

=== FILE: parser_rules.dfy ===
/** The parsing heuristic's rules on small row shapes, for arbitrary cells
    of the right kind, derived through the cell characterizations. */
module ParserRules {
  import opened Options
  import opened Text
  import opened Standings
  import opened TableParser

  /** A cell such as a driver's name: non-empty, starting with a non-digit. */
  predicate IsWord(s: string) {
    |s| > 0 && !IsDigit(s[0])
  }

  /** A word is neither all-digit nor decimal-shaped. */
  lemma WordIsNotNumber(s: string)
    requires IsWord(s)
    ensures !IsDigitString(s) && !IsDecimal(s) && IsNameCandidate(s)
  {
    var k := DotIndex(s);
    if k > 0 {
      assert s[..k][0] == s[0];
    }
  }

  /** A name candidate is never all-digit, so it never takes the position branch. */
  lemma NameIsNotDigits(s: string)
    requires IsNameCandidate(s)
    ensures !IsDigitString(s)
  {
    if IsDigitString(s) {
      DigitStringIsDecimal(s);
    }
  }

  /** Position, name, points in the usual column order give their record. */
  lemma PositionNamePoints(p: string, name: string, q: string)
    requires IsDigitString(p) && DigitsValue(p) != 0
    requires IsNameCandidate(name) && IsDecimal(q)
    ensures RowRecord([p, name, q]) == Some(Record(DigitsValue(p), name, ParseDecimal(q)))
  {
    var row := [p, name, q];
    DigitStringIsDecimal(p);
    NameIsNotDigits(name);
    assert IsNameCell(row, 1);
    assert IsPositionCell(row, 0);
    assert !IsPositionCell(row, 2);
    assert IsPointsCell(row, 2);
    var rec := Record(DigitsValue(p), name, ParseDecimal(q));
    assert BuiltFrom(row, rec, 0, 2, 1);
    RowRecordComplete(row, rec, 0, 2, 1);
  }

  /** An all-digit cell after the position is read as points, not position. */
  lemma LaterDigitsArePoints(p: string, q: string, name: string)
    requires IsDigitString(p) && DigitsValue(p) != 0
    requires IsDigitString(q) && IsNameCandidate(name)
    ensures RowRecord([p, q, name]) == Some(Record(DigitsValue(p), name, Decimal(DigitsValue(q), "")))
  {
    var row := [p, q, name];
    DigitStringIsDecimal(p);
    DigitStringIsDecimal(q);
    NameIsNotDigits(name);
    assert IsNameCell(row, 2);
    assert IsPositionCell(row, 0);
    assert !IsPositionCell(row, 1);
    assert IsPointsCell(row, 1);
    var rec := Record(DigitsValue(p), name, Decimal(DigitsValue(q), ""));
    assert BuiltFrom(row, rec, 0, 1, 2);
    RowRecordComplete(row, rec, 0, 1, 2);
  }

  /** Of two points-shaped cells the later one wins. */
  lemma LastPointsWin(p: string, name: string, q1: string, q2: string)
    requires IsDigitString(p) && DigitsValue(p) != 0
    requires IsNameCandidate(name) && IsDecimal(q1) && IsDecimal(q2)
    ensures RowRecord([p, name, q1, q2]) == Some(Record(DigitsValue(p), name, ParseDecimal(q2)))
  {
    var row := [p, name, q1, q2];
    DigitStringIsDecimal(p);
    NameIsNotDigits(name);
    assert IsNameCell(row, 1);
    assert IsPositionCell(row, 0);
    assert !IsPositionCell(row, 3);
    assert IsPointsCell(row, 3);
    var rec := Record(DigitsValue(p), name, ParseDecimal(q2));
    assert BuiltFrom(row, rec, 0, 3, 1);
    RowRecordComplete(row, rec, 0, 3, 1);
  }

  /** Of two equally long name cells the earlier one is kept. */
  lemma TieKeepsEarlierName(p: string, a: string, b: string, q: string)
    requires IsDigitString(p) && DigitsValue(p) != 0
    requires IsNameCandidate(a) && IsNameCandidate(b) && |a| == |b| && IsDecimal(q)
    ensures RowRecord([p, a, b, q]) == Some(Record(DigitsValue(p), a, ParseDecimal(q)))
  {
    var row := [p, a, b, q];
    DigitStringIsDecimal(p);
    NameIsNotDigits(a);
    NameIsNotDigits(b);
    assert IsNameCell(row, 1);
    assert IsPositionCell(row, 0);
    assert !IsPositionCell(row, 3);
    assert IsPointsCell(row, 3);
    var rec := Record(DigitsValue(p), a, ParseDecimal(q));
    assert BuiltFrom(row, rec, 0, 3, 1);
    RowRecordComplete(row, rec, 0, 3, 1);
  }

  /** A position cell made only of zeros fails the truthiness test, whatever
      else the row holds. */
  lemma ZeroPositionDropped(row: Row, i: int)
    requires IsPositionCell(row, i)
    requires forall m :: 0 <= m < |row[i]| ==> row[i][m] == '0'
    ensures RowRecord(row) == None
  {
    PositionSpec(row);
    DigitsValueZero(row[i]);
  }

  /** A row without an all-digit cell never yields a record. */
  lemma NoDigitCellDropped(row: Row)
    requires forall i :: 0 <= i < |row| ==> !IsDigitString(row[i])
    ensures RowRecord(row) == None
  {
    PositionSpec(row);
  }

  /** Short rows never yield a record, whatever they hold. */
  lemma ShortRowDropped(row: Row)
    requires |row| < 3
    ensures RowRecord(row) == None
  {
  }

  /** The row `1 | Max Verstappen | 575` yields position 1 and 575 points. */
  lemma LeaderRow()
    ensures RowRecord(["1", "Max Verstappen", "575"]) == Some(Record(1, "Max Verstappen", Decimal(575, "")))
  {
    assert IsDigitString("1") && IsDigitString("575");
    assert DigitsValue("1") == 1 by { assert "1"[..0] == ""; }
    assert DigitsValue("575") == 575 by {
      assert "575"[..2] == "57" && "57"[..1] == "5" && "5"[..0] == "";
    }
    DigitStringIsDecimal("575");
    WordIsNotNumber("Max Verstappen");
    PositionNamePoints("1", "Max Verstappen", "575");
  }

  /** The row `DNF | Driver X | 12.5` has no all-digit cell and is dropped. */
  lemma NonFinisherRow()
    ensures RowRecord(["DNF", "Driver X", "12.5"]) == None
  {
    var row := ["DNF", "Driver X", "12.5"];
    WordIsNotNumber(row[0]);
    WordIsNotNumber(row[1]);
    assert !IsDigit(row[2][2]);
    NoDigitCellDropped(row);
  }
}

=== FILE: scraper.dfy ===
/**
 The pipeline around the parser in `F1Scraper`: the selector chain of
 `_scrape_standings_from_url`, the allow-listed candidate loop and fallback
 of `search_f1_standings`, and the row order `create_csv` writes.

 The network is a parameter: a page is either a failed fetch or the rows
 each CSS selector matches, and a search is either a failure or its hits.
 */
module Scraper {
  import opened Text
  import opened Standings
  import opened TableParser

  /** CSS selectors tried on a page, most specific first. */
  const Selectors: seq<string> := [
    "table.resultsarchive-table tr",
    ".standings-table tr",
    ".driver-standings tr",
    "table tr"
  ]

  /** Hosts whose result links are worth fetching. */
  const AllowedDomains: seq<string> := ["formula1.com", "espn.com", "bbc.com"]

  /** The outcome of fetching one URL: an exception (timeout, non-2xx status,
      network error) or the parsed page, seen through what each selector matches. */
  datatype Page = FetchFailed | Fetched(select: string -> Table)

  /** One search hit; a hit without an `href` key makes `result['href']` raise. */
  datatype Hit = Hit(href: string) | HitWithoutHref

  /** The outcome of the web search: an exception, or the hits in rank order. */
  datatype Search = SearchFailed | Hits(hits: seq<Hit>)

  /** A table the chain accepts: more than its header, and a non-empty parse. */
  predicate Usable(rows: Table) {
    |rows| > 1 && |ParseTableRows(rows)| > 0
  }

  /** The selector loop: the first table with more than one row whose parse
      is non-empty wins (cut to `Cap` records); otherwise nothing. */
  function SelectorChain(tables: seq<Table>): (r: seq<Record>)
    ensures |r| <= Cap && SortedByPosition(r) && AllWellFormed(r)
    decreases |tables|
  {
    if |tables| == 0 then []
    else if |tables[0]| > 1 && |ParseTableRows(tables[0])| > 0 then
      Take(ParseTableRows(tables[0]), Cap)
    else SelectorChain(tables[1..])
  }

  /** Table `i` is usable and no earlier one is. */
  predicate FirstUsable(tables: seq<Table>, i: int) {
    0 <= i < |tables| && Usable(tables[i]) && forall m :: 0 <= m < i ==> !Usable(tables[m])
  }

  lemma {:induction false} SelectorChainSkip(tables: seq<Table>, i: nat)
    requires i <= |tables|
    requires forall m :: 0 <= m < i ==> !Usable(tables[m])
    ensures SelectorChain(tables) == SelectorChain(tables[i..])
    decreases i
  {
    if i > 0 {
      assert !Usable(tables[0]);
      SelectorChainSkip(tables[1..], i - 1);
      assert tables[1..][i - 1..] == tables[i..];
    }
  }

  /** The chain returns the parse of the first usable table, and nothing
      when no table is usable; both directions. */
  lemma SelectorChainSpec(tables: seq<Table>)
    ensures forall i :: FirstUsable(tables, i) ==> SelectorChain(tables) == ParseTableRows(tables[i])
    ensures SelectorChain(tables) == [] <==> forall i :: 0 <= i < |tables| ==> !Usable(tables[i])
  {
    forall i | FirstUsable(tables, i)
      ensures SelectorChain(tables) == ParseTableRows(tables[i])
    {
      SelectorChainSkip(tables, i);
      assert tables[i..][0] == tables[i];
    }
    if forall i :: 0 <= i < |tables| ==> !Usable(tables[i]) {
      SelectorChainSkip(tables, |tables|);
    } else {
      var j :| 0 <= j < |tables| && Usable(tables[j]);
      var i := FirstUsableIndex(tables, j);
      SelectorChainSkip(tables, i);
      assert tables[i..][0] == tables[i];
    }
  }

  lemma {:induction false} FirstUsableIndex(tables: seq<Table>, j: int) returns (i: int)
    requires 0 <= j < |tables| && Usable(tables[j])
    ensures FirstUsable(tables, i)
    decreases j
  {
    if m :| 0 <= m < j && Usable(tables[m]) {
      i := FirstUsableIndex(tables, m);
    } else {
      i := j;
    }
  }

  /** The rows each selector matches, in selector order. */
  function SelectedTables(select: string -> Table): (ts: seq<Table>)
    ensures |ts| == |Selectors|
    ensures forall i :: 0 <= i < |Selectors| ==> ts[i] == select(Selectors[i])
  {
    seq(|Selectors|, i requires 0 <= i < |Selectors| => select(Selectors[i]))
  }

  /** `_scrape_standings_from_url`: a failed fetch yields nothing; on a
      fetched page the first selector whose rows are usable decides, and
      nothing comes back when none is. */
  function ScrapeUrl(page: Page): (r: seq<Record>)
    ensures |r| <= Cap && SortedByPosition(r) && AllWellFormed(r)
    ensures page.FetchFailed? ==> r == []
    ensures page.Fetched? ==> forall i :: FirstUsable(SelectedTables(page.select), i) ==>
      r == ParseTableRows(page.select(Selectors[i]))
    ensures page.Fetched? ==> (r == [] <==> forall i :: 0 <= i < |Selectors| ==> !Usable(page.select(Selectors[i])))
  {
    match page
    case FetchFailed => []
    case Fetched(select) =>
      var tables := SelectedTables(select);
      SelectorChainSpec(tables);
      SelectorChain(tables)
  }

  /** `any(domain in href for domain in ...)`: a plain substring test, so the
      domain may appear anywhere in the link, not only in its host. */
  function IsCandidate(href: string): (c: bool)
    ensures c <==>
      (exists a, b :: href == a + "formula1.com" + b) ||
      (exists a, b :: href == a + "espn.com" + b) ||
      (exists a, b :: href == a + "bbc.com" + b)
  {
    ContainsSplit(href, "formula1.com");
    ContainsSplit(href, "espn.com");
    ContainsSplit(href, "bbc.com");
    exists d :: d in AllowedDomains && Contains(href, d)
  }

  /** The candidate loop over the hits, in rank order. */
  function TryHits(hits: seq<Hit>, fetch: string -> Page): (r: seq<Record>)
    ensures 0 < |r| <= Cap && SortedByPosition(r) && AllWellFormed(r)
    decreases |hits|
  {
    if |hits| == 0 then MockStandings()
    else match hits[0]
      case HitWithoutHref => MockStandings()
      case Hit(href) =>
        if IsCandidate(href) && |ScrapeUrl(fetch(href))| > 0 then ScrapeUrl(fetch(href))
        else TryHits(hits[1..], fetch)
  }

  /** `search_f1_standings`: the first non-empty scrape of an allow-listed
      hit, or the fallback table when the search fails, a hit lacks its
      link, or no candidate yields records. The caller always gets records. */
  function SearchStandings(search: Search, fetch: string -> Page): (r: seq<Record>)
    ensures 0 < |r| <= Cap && SortedByPosition(r) && AllWellFormed(r)
    ensures search.SearchFailed? ==> r == MockStandings()
  {
    match search
    case SearchFailed => MockStandings()
    case Hits(hits) => TryHits(hits, fetch)
  }

  /** Hit `i` is an allow-listed link whose scrape yields records. */
  predicate Productive(hits: seq<Hit>, fetch: string -> Page, i: int) {
    0 <= i < |hits| && hits[i].Hit? && IsCandidate(hits[i].href) && |ScrapeUrl(fetch(hits[i].href))| > 0
  }

  /** Hits before `i` all have a link and none of them is productive. */
  predicate Skipped(hits: seq<Hit>, fetch: string -> Page, i: int) {
    0 <= i <= |hits| && forall m :: 0 <= m < i ==> hits[m].Hit? && !Productive(hits, fetch, m)
  }

  lemma {:induction false} TryHitsSkip(hits: seq<Hit>, fetch: string -> Page, i: int)
    requires Skipped(hits, fetch, i)
    ensures TryHits(hits, fetch) == TryHits(hits[i..], fetch)
    decreases i
  {
    if i > 0 {
      var tail := hits[1..];
      assert !Productive(hits, fetch, 0);
      forall m | 0 <= m < i - 1
        ensures tail[m].Hit? && !Productive(tail, fetch, m)
      {
        assert tail[m] == hits[m + 1];
        assert !Productive(hits, fetch, m + 1);
      }
      TryHitsSkip(tail, fetch, i - 1);
      assert tail[i - 1..] == hits[i..];
    }
  }

  /** Which result the candidate loop returns, stated without the loop: the
      scrape of the first productive hit, provided every hit before it has a
      link; the fallback table when a link is missing first or no hit is
      productive. */
  lemma TryHitsSpec(hits: seq<Hit>, fetch: string -> Page, i: int)
    requires Skipped(hits, fetch, i)
    ensures i < |hits| && Productive(hits, fetch, i) ==> TryHits(hits, fetch) == ScrapeUrl(fetch(hits[i].href))
    ensures i < |hits| && hits[i].HitWithoutHref? ==> TryHits(hits, fetch) == MockStandings()
    ensures i == |hits| ==> TryHits(hits, fetch) == MockStandings()
  {
    TryHitsSkip(hits, fetch, i);
    if i < |hits| {
      assert hits[i..][0] == hits[i];
    }
  }

  /** When no allow-listed link yields records (links outside the allow-list
      are never fetched, and a hit without a link ends the loop), the
      fallback table is returned, whatever the other pages hold. */
  lemma {:induction false} NothingScrapedFallsBack(hits: seq<Hit>, fetch: string -> Page)
    requires forall m :: 0 <= m < |hits| && hits[m].Hit? && IsCandidate(hits[m].href) ==>
      ScrapeUrl(fetch(hits[m].href)) == []
    ensures SearchStandings(Hits(hits), fetch) == MockStandings()
    decreases |hits|
  {
    if |hits| > 0 && hits[0].Hit? {
      var rest := hits[1..];
      forall m | 0 <= m < |rest| && rest[m].Hit? && IsCandidate(rest[m].href)
        ensures ScrapeUrl(fetch(rest[m].href)) == []
      {
        assert rest[m] == hits[m + 1];
      }
      NothingScrapedFallsBack(rest, fetch);
    }
  }

  /** With no allow-listed link among the hits the fallback table is
      returned; hits without a link may appear anywhere. */
  lemma NoCandidateFallsBack(hits: seq<Hit>, fetch: string -> Page)
    requires forall m :: 0 <= m < |hits| && hits[m].Hit? ==> !IsCandidate(hits[m].href)
    ensures SearchStandings(Hits(hits), fetch) == MockStandings()
  {
    NothingScrapedFallsBack(hits, fetch);
  }


  /** The order `create_csv` writes rows in: sorted by position. */
  function ExportOrder(standings: seq<Record>): (r: seq<Record>)
    ensures SortedByPosition(r) && multiset(r) == multiset(standings)
  {
    SortByPosition(standings)
  }

  /** The model's export order keeps the search result exactly as returned,
      since it already comes sorted and the model's sort is stable. */
  lemma ExportKeepsSearchOrder(search: Search, fetch: string -> Page)
    ensures ExportOrder(SearchStandings(search, fetch)) == SearchStandings(search, fetch)
  {
    SortSortedIdentity(SearchStandings(search, fetch));
  }

  /** Under the model's stable export order, ordering twice gives the same
      rows as ordering once. */
  lemma ExportIdempotent(standings: seq<Record>)
    ensures ExportOrder(ExportOrder(standings)) == ExportOrder(standings)
  {
    SortIdempotent(standings);
  }
}

=== FILE: standings.dfy ===
/**
 A standings record, the ascending-by-position order the scraper returns and
 the exported file keeps, and the fixed fallback table.
 */
module Standings {
  import opened Text

  /** One driver's row: `{'position', 'driver', 'points'}` in the source. */
  datatype Record = Record(position: nat, driver: string, points: Decimal)

  /** What every record the scraper hands out satisfies: a non-zero position,
      a non-empty name, and points read from a decimal token. */
  predicate WellFormed(r: Record) {
    r.position > 0 && |r.driver| > 0 && Digits(r.points.fraction)
  }

  predicate AllWellFormed(s: seq<Record>) {
    forall i :: 0 <= i < |s| ==> WellFormed(s[i])
  }

  /** Ascending by position; equal positions may sit side by side. */
  predicate SortedByPosition(s: seq<Record>) {
    forall i, j :: 0 <= i < j < |s| ==> s[i].position <= s[j].position
  }

  /** The records of `s` whose position is `p`, in the order of `s`. */
  function WithPosition(s: seq<Record>, p: nat): (r: seq<Record>)
    ensures |r| <= |s|
    ensures forall i :: 0 <= i < |r| ==> r[i].position == p && r[i] in s
  {
    if |s| == 0 then []
    else (if s[0].position == p then [s[0]] else []) + WithPosition(s[1..], p)
  }

  /** Places `x` in front of the first record whose position is not smaller. */
  function Insert(x: Record, s: seq<Record>): (r: seq<Record>)
    requires SortedByPosition(s)
    ensures SortedByPosition(r)
    ensures multiset(r) == multiset(s) + multiset{x}
    ensures |r| > 0 && (r[0] == x || (|s| > 0 && r[0] == s[0]))
  {
    if |s| == 0 then [x]
    else if x.position <= s[0].position then [x] + s
    else
      var t := Insert(x, s[1..]);
      assert s == [s[0]] + s[1..];
      [s[0]] + t
  }

  /** `sorted(standings, key=lambda x: x['position'])`: insertion sort, which
      keeps records of equal position in their input order. */
  function SortByPosition(s: seq<Record>): (r: seq<Record>)
    ensures SortedByPosition(r)
    ensures multiset(r) == multiset(s)
    ensures |r| == |s|
  {
    if |s| == 0 then []
    else
      assert s == [s[0]] + s[1..];
      Insert(s[0], SortByPosition(s[1..]))
  }

  lemma WithPositionConcat(a: seq<Record>, b: seq<Record>, p: nat)
    ensures WithPosition(a + b, p) == WithPosition(a, p) + WithPosition(b, p)
  {
    if |a| == 0 {
      assert a + b == b;
    } else {
      assert (a + b)[1..] == a[1..] + b;
      WithPositionConcat(a[1..], b, p);
    }
  }

  lemma {:induction false} InsertStable(x: Record, s: seq<Record>, p: nat)
    requires SortedByPosition(s)
    ensures WithPosition(Insert(x, s), p) ==
      (if x.position == p then [x] else []) + WithPosition(s, p)
    decreases |s|
  {
    if |s| == 0 {
    } else if x.position <= s[0].position {
      WithPositionConcat([x], s, p);
    } else {
      InsertStable(x, s[1..], p);
      WithPositionConcat([s[0]], Insert(x, s[1..]), p);
    }
  }

  /** The sort is stable: for every position, the records holding it come
      out in the order they went in. */
  lemma {:induction false} SortStable(s: seq<Record>, p: nat)
    ensures WithPosition(SortByPosition(s), p) == WithPosition(s, p)
    decreases |s|
  {
    if |s| > 0 {
      SortStable(s[1..], p);
      InsertStable(s[0], SortByPosition(s[1..]), p);
    }
  }

  /** Sorting what is already in order changes nothing; in particular,
      sorting twice is sorting once. */
  lemma {:induction false} SortSortedIdentity(s: seq<Record>)
    requires SortedByPosition(s)
    ensures SortByPosition(s) == s
    decreases |s|
  {
    if |s| > 0 {
      SortSortedIdentity(s[1..]);
      assert [s[0]] + s[1..] == s;
    }
  }

  lemma SortIdempotent(s: seq<Record>)
    ensures SortByPosition(SortByPosition(s)) == SortByPosition(s)
  {
    SortSortedIdentity(SortByPosition(s));
  }

  /** Sorting moves records around without creating or dropping any, so a
      property every record has survives it. */
  lemma SortKeepsWellFormed(s: seq<Record>)
    requires AllWellFormed(s)
    ensures AllWellFormed(SortByPosition(s))
  {
    var r := SortByPosition(s);
    forall i | 0 <= i < |r|
      ensures WellFormed(r[i])
    {
      assert r[i] in multiset(r);
      assert r[i] in multiset(s);
    }
  }

  function Whole(n: nat): (d: Decimal) {
    Decimal(n, "")
  }

  /** `_get_mock_standings`: the fixed ten-driver fallback table. */
  function MockStandings(): (r: seq<Record>)
    ensures |r| == 10
    ensures forall i :: 0 <= i < |r| ==> r[i].position == i + 1
    ensures forall i :: 0 <= i < |r| ==> r[i].points.fraction == ""
    ensures forall i, j :: 0 <= i < j < |r| ==> r[i].points.whole > r[j].points.whole
    ensures SortedByPosition(r) && AllWellFormed(r)
  {
    [ Record(1, "Max Verstappen", Whole(575)),
      Record(2, "Lando Norris", Whole(356)),
      Record(3, "Charles Leclerc", Whole(325)),
      Record(4, "Oscar Piastri", Whole(292)),
      Record(5, "Carlos Sainz", Whole(290)),
      Record(6, "George Russell", Whole(245)),
      Record(7, "Lewis Hamilton", Whole(223)),
      Record(8, "Sergio Perez", Whole(152)),
      Record(9, "Fernando Alonso", Whole(68)),
      Record(10, "Nico Hulkenberg", Whole(37)) ]
  }
}

=== FILE: table_parser.dfy ===
/**
 `F1Scraper._parse_table_rows`: the heuristic that reads unlabeled table
 rows (already-stripped cell texts) into standings records.

 `Classify` is the cell loop as written; `IsPositionCell`, `IsPointsCell`
 and `IsNameCell` say independently which cell each field comes from, and
 the `...Spec` lemmas connect the two.
 */
module TableParser {
  import opened Options
  import opened Text
  import opened Standings

  /** A table row: the stripped text of its `td`/`th` cells, in column order. */
  type Row = seq<string>

  /** The rows one selector matched; the first is the header. */
  type Table = seq<Row>

  /** The source never keeps more than this many records. */
  const Cap: nat := 20

  /** The loop variables `position`, `name` and `points` of one row. */
  datatype Guess = Guess(position: Option<nat>, name: Option<string>, points: Option<Decimal>)

  /** A cell that may become the driver's name: non-empty and not number-shaped. */
  predicate IsNameCandidate(text: string) {
    text != "" && !IsDecimal(text)
  }

  /** One iteration of the cell loop: first all-digit cell is the position,
      any other decimal-shaped cell overwrites the points, and the longest
      remaining non-empty cell is the name (ties keep the earlier one). */
  function Step(g: Guess, text: string): (s: Guess)
    ensures g.position.Some? ==> s.position == g.position
    ensures s.position != g.position ==> IsDigitString(text) && s.position == Some(DigitsValue(text))
    ensures s.points != g.points ==> IsDecimal(text) && s.points == Some(ParseDecimal(text))
    ensures s.name != g.name ==>
      IsNameCandidate(text) && s.name == Some(text) && (g.name.Some? ==> |text| > |g.name.value|)
    ensures IsNameCandidate(text) && (g.name.None? || |text| > |g.name.value|) ==> s.name == Some(text)
    ensures s == g || s == g.(position := s.position) || s == g.(points := s.points) || s == g.(name := s.name)
  {
    if g.position.None? && IsDigitString(text) then g.(position := Some(DigitsValue(text)))
    else if IsDecimal(text) then g.(points := Some(ParseDecimal(text)))
    else if text != "" && !IsDigitString(text) && !IsDecimal(text) then
      if g.name.None? || |text| > |g.name.value| then g.(name := Some(text)) else g
    else g
  }

  /** The other direction of the first two branches: while no position is
      set an all-digit cell becomes it, and a decimal-shaped cell not taken
      as the position becomes the points. */
  lemma StepTakes(g: Guess, text: string)
    ensures g.position.None? && IsDigitString(text) ==> Step(g, text).position == Some(DigitsValue(text))
    ensures !(g.position.None? && IsDigitString(text)) && IsDecimal(text) ==>
      Step(g, text).points == Some(ParseDecimal(text))
  {
  }

  /** The cell loop over a whole row, left to right. */
  function Classify(cells: Row): (g: Guess)
    ensures g.name.Some? ==> IsNameCandidate(g.name.value)
    ensures g.points.Some? ==> Digits(g.points.value.fraction)
    decreases |cells|
  {
    if |cells| == 0 then Guess(None, None, None)
    else Step(Classify(cells[..|cells| - 1]), cells[|cells| - 1])
  }

  /** Cell `i` is the first all-digit cell of the row. */
  predicate IsPositionCell(cells: Row, i: int) {
    0 <= i < |cells| && IsDigitString(cells[i]) &&
    forall j :: 0 <= j < i ==> !IsDigitString(cells[j])
  }

  /** Cell `j` is decimal-shaped and was not taken as the position. */
  predicate IsPointsCandidate(cells: Row, j: int) {
    0 <= j < |cells| && IsDecimal(cells[j]) && !IsPositionCell(cells, j)
  }

  /** Cell `j` is the last points candidate of the row. */
  predicate IsPointsCell(cells: Row, j: int) {
    IsPointsCandidate(cells, j) &&
    forall k :: j < k < |cells| ==> !IsPointsCandidate(cells, k)
  }

  /** Cell `k` is a longest name candidate and no earlier candidate is as long. */
  predicate IsNameCell(cells: Row, k: int) {
    0 <= k < |cells| && IsNameCandidate(cells[k]) &&
    (forall j :: 0 <= j < |cells| && IsNameCandidate(cells[j]) ==> |cells[j]| <= |cells[k]|) &&
    (forall j :: 0 <= j < k && IsNameCandidate(cells[j]) ==> |cells[j]| < |cells[k]|)
  }

  lemma PositionCellPrefix(cells: Row, n: nat, i: int)
    requires n <= |cells| && 0 <= i < n
    ensures IsPositionCell(cells[..n], i) <==> IsPositionCell(cells, i)
  {
    assert forall j :: 0 <= j <= i ==> cells[..n][j] == cells[j];
  }

  lemma PointsCandidatePrefix(cells: Row, n: nat, j: int)
    requires n <= |cells| && 0 <= j < n
    ensures IsPointsCandidate(cells[..n], j) <==> IsPointsCandidate(cells, j)
  {
    PositionCellPrefix(cells, n, j);
  }

  /** The position is the value of the first all-digit cell, and is unset
      exactly when the row has no all-digit cell. */
  lemma {:induction false} PositionSpec(cells: Row)
    ensures Classify(cells).position.None? <==> forall i :: 0 <= i < |cells| ==> !IsDigitString(cells[i])
    ensures forall i :: IsPositionCell(cells, i) ==> Classify(cells).position == Some(DigitsValue(cells[i]))
    decreases |cells|
  {
    if |cells| > 0 {
      var n := |cells| - 1;
      var p := cells[..n];
      var t := cells[n];
      PositionSpec(p);
      assert forall i :: 0 <= i < n ==> p[i] == cells[i];
      forall i | IsPositionCell(cells, i)
        ensures Classify(cells).position == Some(DigitsValue(cells[i]))
      {
        if i < n {
          PositionCellPrefix(cells, n, i);
        }
      }
    }
  }

  /** The loop's points branch fires on the last cell exactly when that cell
      is a points candidate. */
  lemma PointsBranch(cells: Row)
    requires |cells| > 0
    ensures var n := |cells| - 1;
      IsPointsCandidate(cells, n) <==>
      !(Classify(cells[..n]).position.None? && IsDigitString(cells[n])) && IsDecimal(cells[n])
  {
    var n := |cells| - 1;
    var p := cells[..n];
    PositionSpec(p);
    assert forall i :: 0 <= i < n ==> p[i] == cells[i];
  }

  /** The points come from the last decimal-shaped cell that was not taken
      as the position, and are unset exactly when there is no such cell. */
  lemma {:induction false} PointsSpec(cells: Row)
    ensures Classify(cells).points.None? <==> forall j :: 0 <= j < |cells| ==> !IsPointsCandidate(cells, j)
    ensures forall j :: IsPointsCell(cells, j) ==> Classify(cells).points == Some(ParseDecimal(cells[j]))
    decreases |cells|
  {
    if |cells| > 0 {
      var n := |cells| - 1;
      var p := cells[..n];
      var t := cells[n];
      PointsSpec(p);
      PointsBranch(cells);
      assert Classify(cells) == Step(Classify(p), t);
      forall j | 0 <= j < n
        ensures IsPointsCandidate(p, j) <==> IsPointsCandidate(cells, j)
      {
        PointsCandidatePrefix(cells, n, j);
      }
      if IsPointsCandidate(cells, n) {
        assert Classify(cells).points == Some(ParseDecimal(t));
      } else {
        assert Classify(cells).points == Classify(p).points;
        forall j | IsPointsCell(cells, j)
          ensures Classify(cells).points == Some(ParseDecimal(cells[j]))
        {
          assert j < n;
          assert p[j] == cells[j];
          assert IsPointsCell(p, j);
        }
      }
    }
  }

  lemma NameCellUnique(cells: Row, k1: int, k2: int)
    requires IsNameCell(cells, k1) && IsNameCell(cells, k2)
    ensures k1 == k2
  {
  }

  /** The loop's name branch looks exactly at name candidates, because every
      all-digit cell is also decimal-shaped. */
  lemma NameBranch(g: Guess, t: string)
    ensures Step(g, t).name ==
      if IsNameCandidate(t) && (g.name.None? || |t| > |g.name.value|) then Some(t) else g.name
  {
    if IsDigitString(t) {
      DigitStringIsDecimal(t);
    }
  }

  /** The name cell found so far either stays the name cell or is replaced
      by the new last cell. */
  lemma NameCellExtend(cells: Row, k: int)
    requires |cells| > 0
    requires IsNameCell(cells[..|cells| - 1], k)
    ensures var n := |cells| - 1;
      if IsNameCandidate(cells[n]) && |cells[n]| > |cells[k]| then IsNameCell(cells, n) else IsNameCell(cells, k)
  {
    var n := |cells| - 1;
    var p := cells[..n];
    assert forall i :: 0 <= i < n ==> p[i] == cells[i];
  }

  /** The first name candidate of a row is the name cell of that prefix. */
  lemma NameCellFirst(cells: Row)
    requires |cells| > 0
    requires forall j :: 0 <= j < |cells| - 1 ==> !IsNameCandidate(cells[j])
    requires IsNameCandidate(cells[|cells| - 1])
    ensures IsNameCell(cells, |cells| - 1)
  {
  }

  /** The name is the longest non-empty cell that is not number-shaped, the
      earliest of equally long ones, and is unset exactly when there is none. */
  lemma {:induction false} NameSpec(cells: Row)
    ensures Classify(cells).name.None? <==> forall j :: 0 <= j < |cells| ==> !IsNameCandidate(cells[j])
    ensures Classify(cells).name.Some? ==> exists k :: IsNameCell(cells, k) && Classify(cells).name == Some(cells[k])
    decreases |cells|
  {
    if |cells| > 0 {
      var n := |cells| - 1;
      var p := cells[..n];
      var t := cells[n];
      NameSpec(p);
      var g := Classify(p);
      assert Classify(cells) == Step(g, t);
      NameBranch(g, t);
      assert forall i :: 0 <= i < n ==> p[i] == cells[i];
      if g.name.Some? {
        var k :| IsNameCell(p, k) && g.name == Some(p[k]);
        NameCellExtend(cells, k);
      } else if IsNameCandidate(t) {
        NameCellFirst(cells);
      }
    }
  }

  /** Whichever name cell there is, it is the one the loop kept. */
  lemma NameCellIsName(cells: Row, k: int)
    requires IsNameCell(cells, k)
    ensures Classify(cells).name == Some(cells[k])
  {
    NameSpec(cells);
    var k' :| IsNameCell(cells, k') && Classify(cells).name == Some(cells[k']);
    NameCellUnique(cells, k, k');
  }

  /** The record a data row yields: rows with fewer than three cells are
      skipped, and a row is kept only when its position is non-zero (the
      source tests it for truthiness), a name was found and points are
      present (zero points pass). */
  function RowRecord(row: Row): (r: Option<Record>)
    ensures r.Some? ==> WellFormed(r.value)
  {
    if |row| < 3 then None
    else
      var g := Classify(row);
      if g.position.Some? && g.position.value != 0 && g.name.Some? && g.name.value != "" && g.points.Some?
      then Some(Record(g.position.value, g.name.value, g.points.value))
      else None
  }

  /** `rec` is assembled from position cell `i`, points cell `j` and name
      cell `k` of `row`, and its position is non-zero. */
  predicate BuiltFrom(row: Row, rec: Record, i: int, j: int, k: int) {
    IsPositionCell(row, i) && IsPointsCell(row, j) && IsNameCell(row, k) &&
    rec == Record(DigitsValue(row[i]), row[k], ParseDecimal(row[j])) && rec.position != 0
  }

  lemma RowRecordSound(row: Row, rec: Record)
    requires RowRecord(row) == Some(rec)
    ensures |row| >= 3 && exists i, j, k :: BuiltFrom(row, rec, i, j, k)
  {
    PositionSpec(row);
    PointsSpec(row);
    NameSpec(row);
    var g := Classify(row);
    var i := FirstDigitCell(row);
    var j := LastPointsCell(row);
    var k :| IsNameCell(row, k) && g.name == Some(row[k]);
    assert BuiltFrom(row, rec, i, j, k);
  }

  lemma RowRecordComplete(row: Row, rec: Record, i: int, j: int, k: int)
    requires |row| >= 3 && BuiltFrom(row, rec, i, j, k)
    ensures RowRecord(row) == Some(rec)
  {
    PositionSpec(row);
    PointsSpec(row);
    NameCellIsName(row, k);
  }

  /** A row's record stated through the cells it comes from: both directions. */
  lemma RowRecordSpec(row: Row, rec: Record)
    ensures RowRecord(row) == Some(rec) <==> |row| >= 3 && exists i, j, k :: BuiltFrom(row, rec, i, j, k)
  {
    if RowRecord(row) == Some(rec) {
      RowRecordSound(row, rec);
    }
    if |row| >= 3 && exists i, j, k :: BuiltFrom(row, rec, i, j, k) {
      var i, j, k :| BuiltFrom(row, rec, i, j, k);
      RowRecordComplete(row, rec, i, j, k);
    }
  }

  /** The index of the first all-digit cell, when there is one. */
  lemma FirstDigitCell(cells: Row) returns (i: int)
    requires exists j :: 0 <= j < |cells| && IsDigitString(cells[j])
    ensures IsPositionCell(cells, i)
  {
    var j :| 0 <= j < |cells| && IsDigitString(cells[j]);
    i := 0;
    while !IsDigitString(cells[i])
      invariant 0 <= i <= j
      invariant forall m :: 0 <= m < i ==> !IsDigitString(cells[m])
      decreases j - i
    {
      i := i + 1;
    }
  }

  /** The index of the last points candidate, when there is one. */
  lemma LastPointsCell(cells: Row) returns (j: int)
    requires exists m :: 0 <= m < |cells| && IsPointsCandidate(cells, m)
    ensures IsPointsCell(cells, j)
  {
    var m :| 0 <= m < |cells| && IsPointsCandidate(cells, m);
    j := |cells| - 1;
    while !IsPointsCandidate(cells, j)
      invariant m <= j < |cells|
      invariant forall q :: j < q < |cells| ==> !IsPointsCandidate(cells, q)
      decreases j - m
    {
      j := j - 1;
    }
  }

  function Keep(o: Option<Record>): (s: seq<Record>)
    ensures |s| <= 1
  {
    match o
    case Some(x) => [x]
    case None => []
  }

  /** Every record the data rows yield, in row order, with no cap. */
  function Accepted(body: Table): (r: seq<Record>)
    ensures |r| <= |body|
    ensures AllWellFormed(r)
  {
    if |body| == 0 then []
    else Keep(RowRecord(body[0])) + Accepted(body[1..])
  }

  /** The first `n` elements of `s`, or all of them when there are fewer. */
  function Take<T>(s: seq<T>, n: nat): (r: seq<T>)
    ensures |r| == if |s| < n then |s| else n
    ensures r <= s
  {
    if |s| < n then s else s[..n]
  }

  /** The row loop as written: append each row's record and stop as soon as
      `Cap` records are held. */
  function Collect(body: Table, acc: seq<Record>): (r: seq<Record>)
    requires |acc| < Cap
    ensures acc <= r && |r| <= Cap
    ensures |r| < Cap ==> r == acc + Accepted(body)
    decreases |body|
  {
    if |body| == 0 then acc
    else
      var k := Keep(RowRecord(body[0]));
      var acc' := acc + k;
      if |acc'| >= Cap then acc'
      else
        var rest := Accepted(body[1..]);
        assert Accepted(body) == k + rest;
        assert acc' + rest == acc + (k + rest);
        Collect(body[1..], acc')
  }

  /** Stopping at `Cap` keeps exactly the first records in row order. */
  lemma {:induction false} CollectTakesFirst(body: Table, acc: seq<Record>)
    requires |acc| < Cap
    ensures Collect(body, acc) == acc + Take(Accepted(body), Cap - |acc|)
    decreases |body|
  {
    if |body| > 0 {
      var k := Keep(RowRecord(body[0]));
      var acc' := acc + k;
      var rest := Accepted(body[1..]);
      assert Accepted(body) == k + rest;
      if |acc'| >= Cap {
        assert Take(Accepted(body), Cap - |acc|) == k;
      } else {
        CollectTakesFirst(body[1..], acc');
        assert Take(k + rest, Cap - |acc|) == k + Take(rest, Cap - |acc'|);
      }
    }
  }

  /** The data rows of a table: all but the header (none for an empty table). */
  function DataRows(rows: Table): (body: Table) {
    if |rows| == 0 then [] else rows[1..]
  }

  /** The records a table yields: the first `Cap` accepted data rows, sorted
      by position (equal positions keep row order). */
  function ParseTableRows(rows: Table): (r: seq<Record>)
    ensures |r| <= Cap
    ensures SortedByPosition(r) && AllWellFormed(r)
    ensures multiset(r) == multiset(Take(Accepted(DataRows(rows)), Cap))
    ensures |r| == 0 <==> |Accepted(DataRows(rows))| == 0
  {
    var body := DataRows(rows);
    CollectTakesFirst(body, []);
    var kept := Collect(body, []);
    assert kept == Take(Accepted(body), Cap);
    SortKeepsWellFormed(kept);
    SortByPosition(kept)
  }

  /** Records of equal position come out of the parse in row order. */
  lemma ParseKeepsTies(rows: Table, p: nat)
    ensures WithPosition(ParseTableRows(rows), p) == WithPosition(Take(Accepted(DataRows(rows)), Cap), p)
  {
    var body := DataRows(rows);
    var kept := Collect(body, []);
    CollectTakesFirst(body, []);
    assert kept == Take(Accepted(body), Cap);
    SortStable(kept, p);
    assert ParseTableRows(rows) == SortByPosition(kept);
  }

  /** The header row never contributes: any first row gives the same result. */
  lemma HeaderIgnored(header: Row, header': Row, body: Table)
    ensures ParseTableRows([header] + body) == ParseTableRows([header'] + body)
  {
    assert DataRows([header] + body) == body;
    assert DataRows([header'] + body) == body;
  }

  /** Extra data rows after `Cap` accepted ones change nothing. */
  lemma CapIgnoresLaterRows(rows: Table, more: Table)
    requires |Accepted(DataRows(rows))| >= Cap
    ensures ParseTableRows(rows + more) == ParseTableRows(rows)
  {
    var body := DataRows(rows);
    assert |rows| > 0;
    assert DataRows(rows + more) == body + more;
    AcceptedConcat(body, more);
    var a := Accepted(body);
    assert Take(a + Accepted(more), Cap) == Take(a, Cap);
    CollectTakesFirst(body + more, []);
    CollectTakesFirst(body, []);
    assert Collect(body + more, []) == Collect(body, []);
  }

  lemma {:induction false} AcceptedConcat(a: Table, b: Table)
    ensures Accepted(a + b) == Accepted(a) + Accepted(b)
    decreases |a|
  {
    if |a| == 0 {
      assert a + b == b;
    } else {
      assert (a + b)[1..] == a[1..] + b;
      AcceptedConcat(a[1..], b);
    }
  }
}

=== FILE: text.dfy ===
/**
 Character-level building blocks shared by the scraper and the bot:
 ASCII digit strings and their values, the decimal-number shape
 `^\d+(\.\d+)?$`, substring search, and ASCII lower-casing.
 */
module Text {

  predicate IsDigit(c: char) {
    '0' <= c <= '9'
  }

  /** Every character is a digit (the empty string qualifies). */
  predicate Digits(s: string) {
    forall i :: 0 <= i < |s| ==> IsDigit(s[i])
  }

  /** `str.isdigit()` / `^\d+$` restricted to ASCII: non-empty and all digits. */
  predicate IsDigitString(s: string) {
    |s| > 0 && Digits(s)
  }

  function DigitValue(c: char): (d: nat)
    requires IsDigit(c)
    ensures d < 10
  {
    (c as int) - ('0' as int)
  }

  function DigitChar(d: nat): (c: char)
    requires d < 10
    ensures IsDigit(c) && DigitValue(c) == d
  {
    (('0' as int) + d) as char
  }

  /** The value `int(s)` gives for an ASCII digit string, read left to right. */
  function DigitsValue(s: string): (v: nat)
    requires Digits(s)
    decreases |s|
  {
    if |s| == 0 then 0
    else DigitsValue(s[..|s| - 1]) * 10 + DigitValue(s[|s| - 1])
  }

  /** Decimal rendering of a natural number, as `str(n)` prints it. */
  function NatToString(n: nat): (s: string)
    ensures IsDigitString(s)
    decreases n
  {
    if n < 10 then [DigitChar(n)]
    else NatToString(n / 10) + [DigitChar(n % 10)]
  }

  /** `int(str(n)) == n`: the rendering reads back as the number. */
  lemma {:induction false} NatToStringRoundTrip(n: nat)
    ensures DigitsValue(NatToString(n)) == n
    decreases n
  {
    if n >= 10 {
      var s := NatToString(n);
      var p := NatToString(n / 10);
      assert s[..|s| - 1] == p;
      NatToStringRoundTrip(n / 10);
    }
  }

  /** A digit string is worth zero exactly when every digit is `0`; this is
      what makes `"0"` and `"00"` fail a truthiness test after `int()`. */
  lemma {:induction false} DigitsValueZero(s: string)
    requires Digits(s)
    ensures DigitsValue(s) == 0 <==> forall i :: 0 <= i < |s| ==> s[i] == '0'
    decreases |s|
  {
    if |s| > 0 {
      var p := s[..|s| - 1];
      assert Digits(p);
      DigitsValueZero(p);
      assert forall i :: 0 <= i < |p| ==> p[i] == s[i];
      assert (forall i :: 0 <= i < |s| ==> s[i] == '0') <==>
             (forall i :: 0 <= i < |p| ==> p[i] == '0') && s[|s| - 1] == '0';
    }
  }

  /** Index of the first `.` in `s`, or `|s|` when there is none. */
  function DotIndex(s: string): (k: nat)
    ensures k <= |s|
    ensures k < |s| ==> s[k] == '.'
    ensures forall i :: 0 <= i < k ==> s[i] != '.'
    decreases |s|
  {
    if |s| == 0 then 0
    else if s[0] == '.' then 0
    else 1 + DotIndex(s[1..])
  }

  /** The shape `^\d+(\.\d+)?$`: digits, optionally a point and more digits. */
  predicate IsDecimal(s: string) {
    var k := DotIndex(s);
    IsDigitString(s[..k]) && (k == |s| || IsDigitString(s[k + 1..]))
  }

  /** The regular expression read literally: either only digits, or digits,
      one point and digits. */
  lemma DecimalShape(s: string)
    ensures IsDecimal(s) <==>
      (IsDigitString(s) ||
       exists k :: 0 < k < |s| - 1 && s[k] == '.' && IsDigitString(s[..k]) && IsDigitString(s[k + 1..]))
  {
    var d := DotIndex(s);
    if IsDigitString(s) {
      assert d == |s|;
      assert s[..d] == s;
    }
    if k :| 0 < k < |s| - 1 && s[k] == '.' && IsDigitString(s[..k]) && IsDigitString(s[k + 1..]) {
      assert d == k;
    }
  }

  lemma DigitStringIsDecimal(s: string)
    requires IsDigitString(s)
    ensures IsDecimal(s)
  {
    DecimalShape(s);
  }

  /** A decimal token split at its point: the whole part's value and the
      fraction's digits (empty when the token has no point). */
  datatype Decimal = Decimal(whole: nat, fraction: string)

  function ParseDecimal(s: string): (d: Decimal)
    requires IsDecimal(s)
    ensures Digits(d.fraction)
    ensures IsDigitString(s) ==> d == Decimal(DigitsValue(s), "")
  {
    var k := DotIndex(s);
    if IsDigitString(s) then
      assert k == |s|;
      assert s[..k] == s;
      Decimal(DigitsValue(s[..k]), "")
    else Decimal(DigitsValue(s[..k]), s[k + 1..])
  }

  /** Rendering of a decimal: the whole part, then the point and the fraction
      when there is one. */
  function DecimalToString(d: Decimal): (s: string)
    requires Digits(d.fraction)
    ensures IsDecimal(s) && ParseDecimal(s) == d
  {
    var w := NatToString(d.whole);
    NatToStringRoundTrip(d.whole);
    if d.fraction == "" then w
    else
      var s := w + "." + d.fraction;
      assert DotIndex(s) == |w| by {
        assert s[|w|] == '.';
        assert forall i :: 0 <= i < |w| ==> s[i] == w[i];
      }
      assert s[..|w|] == w;
      assert s[|w| + 1..] == d.fraction;
      s
  }

  /** The first `.` after a run of digits is the one that ends it. */
  lemma DotAfterDigits(p: string, rest: string)
    requires IsDigitString(p) && |rest| > 0 && rest[0] == '.'
    ensures DotIndex(p + rest) == |p|
  {
    var s := p + rest;
    assert s[|p|] == '.';
  }

  /** `sub` occurs in `s` starting at index `i`. */
  predicate OccursAt(s: string, sub: string, i: int) {
    0 <= i && i + |sub| <= |s| && s[i..i + |sub|] == sub
  }

  /** Python's `sub in s` for strings. */
  predicate Contains(s: string, sub: string) {
    exists i | 0 <= i <= |s| - |sub| :: OccursAt(s, sub, i)
  }

  /** `sub in s` exactly when `s` splits around a copy of `sub`. */
  lemma ContainsSplit(s: string, sub: string)
    ensures Contains(s, sub) <==> exists a, b :: s == a + sub + b
  {
    if Contains(s, sub) {
      var i :| 0 <= i <= |s| - |sub| && OccursAt(s, sub, i);
      assert s == s[..i] + sub + s[i + |sub|..];
    }
    if exists a, b :: s == a + sub + b {
      var a, b :| s == a + sub + b;
      assert s[|a|..|a| + |sub|] == sub;
      assert OccursAt(s, sub, |a|);
    }
  }

  /** Containment survives adding text on either side. */
  lemma ContainsExtend(s: string, sub: string, left: string, right: string)
    requires Contains(s, sub)
    ensures Contains(left + s + right, sub)
  {
    var i :| 0 <= i <= |s| - |sub| && OccursAt(s, sub, i);
    var t := left + s + right;
    assert t[|left| + i..|left| + i + |sub|] == s[i..i + |sub|];
    assert OccursAt(t, sub, |left| + i);
  }

  function LowerChar(c: char): (r: char)
    ensures 'A' <= c <= 'Z' ==> 'a' <= r <= 'z' && r as int - c as int == 'a' as int - 'A' as int
    ensures !('A' <= c <= 'Z') ==> r == c
  {
    if 'A' <= c <= 'Z' then ((c as int) - ('A' as int) + ('a' as int)) as char else c
  }

  /** `str.lower()` on ASCII letters; every other character is kept. */
  function Lower(s: string): (r: string)
    ensures |r| == |s|
    ensures forall i :: 0 <= i < |s| ==> r[i] == LowerChar(s[i])
  {
    seq(|s|, i requires 0 <= i < |s| => LowerChar(s[i]))
  }

  lemma LowerIdempotent(s: string)
    ensures Lower(Lower(s)) == Lower(s)
  {
  }

  lemma LowerConcat(a: string, b: string)
    ensures Lower(a + b) == Lower(a) + Lower(b)
  {
  }

  /** Where part `i` starts in `Join(parts)`: the total length of the parts before it. */
  function Offset(parts: seq<string>, i: nat): (o: nat)
    requires i <= |parts|
  {
    if i == 0 then 0 else Offset(parts, i - 1) + |parts[i - 1]|
  }

  lemma {:induction false} OffsetPrefix(parts: seq<string>, n: nat, i: nat)
    requires i <= n <= |parts|
    ensures Offset(parts[..n], i) == Offset(parts, i)
    decreases i
  {
    if i > 0 {
      OffsetPrefix(parts, n, i - 1);
      assert parts[..n][i - 1] == parts[i - 1];
    }
  }

  lemma {:induction false} OffsetMonotone(parts: seq<string>, i: nat, j: nat)
    requires i <= j <= |parts|
    ensures Offset(parts, i) <= Offset(parts, j)
    decreases j
  {
    if i < j {
      OffsetMonotone(parts, i, j - 1);
    }
  }

  /** Part `i` of `parts` sits in `r` between `Offset(parts, i)` and `Offset(parts, i + 1)`. */
  predicate PartAt(r: string, parts: seq<string>, i: nat)
    requires i < |parts|
  {
    Offset(parts, i) <= Offset(parts, i + 1) <= |r| &&
    r[Offset(parts, i)..Offset(parts, i + 1)] == parts[i]
  }

  /** The parts written one after another, in order. */
  function Join(parts: seq<string>): (r: string)
    ensures |r| == Offset(parts, |parts|)
    decreases |parts|
  {
    if |parts| == 0 then ""
    else
      var n := |parts| - 1;
      OffsetPrefix(parts, n, n);
      Join(parts[..n]) + parts[n]
  }

  /** Each part can be read back at its offset. */
  lemma {:induction false} JoinPart(parts: seq<string>, i: nat)
    requires i < |parts|
    ensures PartAt(Join(parts), parts, i)
    decreases |parts|
  {
    var n := |parts| - 1;
    var front := parts[..n];
    var head := Join(front);
    var r := Join(parts);
    assert r == head + parts[n];
    OffsetPrefix(parts, n, n);
    OffsetMonotone(parts, i + 1, |parts|);
    if i < n {
      JoinPart(front, i);
      OffsetPrefix(parts, n, i);
      OffsetPrefix(parts, n, i + 1);
      assert front[i] == parts[i];
      assert r[Offset(parts, i)..Offset(parts, i + 1)] == head[Offset(parts, i)..Offset(parts, i + 1)];
    }
  }

  lemma JoinParts(parts: seq<string>)
    ensures forall i :: 0 <= i < |parts| ==> PartAt(Join(parts), parts, i)
  {
    forall i | 0 <= i < |parts|
      ensures PartAt(Join(parts), parts, i)
    {
      JoinPart(parts, i);
    }
  }

  lemma {:induction false} JoinConcat(a: seq<string>, b: seq<string>)
    ensures Join(a + b) == Join(a) + Join(b)
    decreases |b|
  {
    if |b| == 0 {
      assert a + b == a;
    } else {
      var n := |b| - 1;
      assert (a + b)[..|a + b| - 1] == a + b[..n];
      assert (a + b)[|a + b| - 1] == b[n];
      JoinConcat(a, b[..n]);
    }
  }
}
